=== FILE: README.md ===
# Crypto market ETL and segmentation, modelled in Dafny

The repository runs a small pipeline over the CoinGecko markets endpoint and a
MySQL table `crypto_prices`:

1. `run_etl_load` pages through the endpoint until 250 coins are collected or
   a page comes back empty. It reshapes each coin object into a record stamped
   with one capture time. It then loads the batch with
   `INSERT ... ON DUPLICATE KEY UPDATE`, keyed on `(timestamp, coin_id)`.
2. `run_segmentation_update` reads `(timestamp, coin_id, market_cap)` for
   every stored row. It bins the market cap into four tiers with `pd.cut`,
   then writes the tier label back row by row, skipping rows whose `UPDATE`
   raises. It reports the sum of the row counts.
3. `pipeline_orchestrator.py` runs the two steps in that order.

The model is functional throughout:

- The HTTP call is an oracle from `(page, perPage)` to the coin objects
  returned. The empty sequence stands for every failure path.
- A coin object is a `map<string, Value>`, where `Value` is JSON
  `null`/number/string.
- The table is a `map` from `(timestamp, coin_id)` to the rest of the row.
- `executemany` is a left fold of single-row upserts.
- The update sweep is a fold over the rows read, with a predicate `fails`
  saying which row updates raise.

Files and modules:

| file | module | models |
|---|---|---|
| values.dfy | `Values` | `Option`, the JSON scalar `Value`, `min` |
| records.dfy | `Records` | coin objects, the seventeen fields and their JSON keys, price points |
| fetcher.dfy | `Fetcher` | the pagination loop of `run_etl_load` |
| transformer.dfy | `Transformer` | `transform_data` |
| persister.dfy | `Persister` | the upsert statement of `insert_data_mysql` |
| tiers.dfy | `Tiers` | the `pd.cut` binning |
| segmenter.dfy | `Segmenter` | `run_segmentation_update` |
| pipeline.dfy | `Pipeline` | the load decision of `run_etl_load` and the orchestrator |

Four points where the code does something other than what its tier label
texts, comments and messages suggest. The model follows the code:

- Bin boundaries. The label `"Micro/Nano Cap (< $100M)"` suggests that
  exactly $100M is Small. `pd.cut` with `right=True` closes every bin on the
  right, so 1e8 is Micro/Nano, 1e9 is Small and 1e11 is Mid.
  `Tiers.Classify` states these intervals.
- Tier label for a missing or negative market cap. Such a value falls in no
  bin. The code then passes `str(NaN)`, which is the text `"nan"`, to the
  `UPDATE`, so the tier column holds `"nan"` rather than staying `NULL`.
  `Segmenter.TierText` writes `"nan"`.
- Meaning of `updated_count`. `cursor.rowcount` of an `UPDATE` counts the
  rows it *changed*, because the connector does not ask the server for
  matched rows. A row that already holds its label therefore adds 0, and a
  second segmentation run reports "Successfully updated 0 records".
  `Segmenter.SweepCount` states this count.
- Rows with a `NULL` coin id. The predicate `coin_id = NULL` is never true,
  so the `UPDATE` for such a row changes nothing.

## Model

| member | source | states |
|---|---|---|
| Fetcher.Paginate | etl_crypto.py:164-177 | Issues pages `|requests|+1, …` in order while fewer than `target` items are held. Each asks for `min(maxPerPage, target - fetched)`, which is at least 1. The result data is the in-order concatenation of all responses, extending what was already held. A page follows only a non-empty one. The loop ends holding at least `target` items (more if a page returned more than asked for), or after an empty page, or without a request when the page size is not positive. |
| Fetcher.Extract | etl_crypto.py:11-12 | The configured loop, with `TARGET_ROWS = MAX_PER_PAGE = 250`. The first request is page 1 for 250 items, and the loop stops with at least 250 items or after an empty page. |
| Fetcher.FetchAll | etl_crypto.py:159-177 | Starting from page 1 with nothing fetched, the loop terminates with the same facts: in-order page numbering and sizes, data equals the concatenated responses, and it stops only at the target or after an empty page. |
| Fetcher.FetchAllWithinTarget | etl_crypto.py:164-172 | If no page is longer than requested, the collected count never exceeds `TARGET_ROWS`. |
| Fetcher.FetchAllSinglePage | etl_crypto.py:164-177 | When the first page already holds the target, exactly one request is made. |
| Fetcher.FetchAllUnderCap | etl_crypto.py:164-177 | Against an endpoint that answers every request with exactly `min(size, cap)` items, the loop collects exactly `target` items in `ceil(target / min(maxPerPage, cap))` requests. For example, 250 items at 100 per page take 3 requests. |
| Fetcher.ReplayPrefixGrows | etl_crypto.py:170-172 | The accumulated data never shrinks as requests are added. |
| Transformer.TransformRecord | etl_crypto.py:60-65 | The record carries the run's capture time and `coin_id == coin.get("id")`. |
| Transformer.TransformRecordFields | etl_crypto.py:63-82 | Each of the seventeen fields is `coin.get` of its JSON key. A key missing from the coin gives `null`, never a default. |
| Transformer.TransformData | etl_crypto.py:59-84 | Exactly one record per input coin, in input order, each the transform of its coin. All records share the one timestamp. |
| Transformer.TransformRoundTrip | etl_crypto.py:63-82 | Rebuilding a coin object from a price point and transforming it gives back the same price point: the transform loses no field it reads. |
| Transformer.TransformKeepsRelevantFields | etl_crypto.py:63-82 | The coin object rebuilt from a transformed record equals the original coin restricted to the seventeen read keys with `null` entries dropped. Nothing is invented or defaulted. |
| Transformer.ToRawOfReadFields | etl_crypto.py:63-82 | Any price point whose fields are read from `coin` by JSON key rebuilds to the relevant part of `coin`. |
| Transformer.RoundTripField | etl_crypto.py:63-82 | A single field survives the trip through the rebuilt coin object. |
| Records.JsonKeyInjective | etl_crypto.py:63-82 | The seventeen output fields read seventeen distinct JSON keys. |
| Records.PricePointExtensional | etl_crypto.py:63-82 | A record is determined by its timestamp and its seventeen fields. |
| Persister.Upserted | etl_crypto.py:106-128 | The row left under `p`'s key always takes the fourteen metrics from `p`. Under an existing key, `symbol`, `name` and the tier stay as stored. Under a new key, `symbol` and `name` come from `p` and the tier is `NULL`. |
| Persister.UpsertRow | etl_crypto.py:106-128 | One row adds its key if new and writes the upserted row under it. Every other key keeps its row. |
| Persister.UpsertRowColumns | etl_crypto.py:106-128 | Column by column: a new key gets every source column of `p` and a `NULL` tier. An existing key gets exactly the fourteen columns after `ON DUPLICATE KEY UPDATE` from `p` and keeps every other column. |
| Persister.UpsertAll | etl_crypto.py:130-143 | After the batch, the keys are the old keys plus the batch's keys, each held once. |
| Persister.UpsertAllUntouched | etl_crypto.py:106-143 | A key no batch row carries keeps its stored row. |
| Persister.UpsertAllLastMetrics | etl_crypto.py:114-128 | The metric columns under a key come from the last batch row with that key. |
| Persister.UpsertAllKeepsIdentity | etl_crypto.py:114-128 | A key that was stored keeps its `symbol`, `name` and tier, whatever the batch holds. |
| Persister.UpsertAllFirstIdentity | etl_crypto.py:106-128 | A new key takes `symbol` and `name` from the first batch row with that key, and a `NULL` tier. |
| Persister.UpsertAllIdempotent | etl_crypto.py:101-143 | Running the same batch again leaves the table as it was after the first run. |
| Persister.UpsertRowKeepsIdentity | etl_crypto.py:114-128 | A single row never overwrites a stored `symbol`, `name` or tier. |
| Persister.UpsertRowInserts | etl_crypto.py:106-113 | A single row under a new key stores `p`'s `symbol` and `name` and a `NULL` tier. |
| Tiers.Classify | segment_and_load.py:49-58 | Market cap `m` gets Micro/Nano iff `0 <= m <= 1e8` (0 included by `include_lowest`). It gets Small iff `1e8 < m <= 1e9`, Mid iff `1e9 < m <= 1e11`, Large iff `m > 1e11`, and no bin iff `m < 0`. |
| Tiers.ClassifyMonotone | segment_and_load.py:49-50 | For `0 <= m1 <= m2`, the tier of `m1` is never higher than the tier of `m2`. |
| Tiers.ClassifyExactlyOne | segment_and_load.py:49-58 | Every non-negative market cap falls in exactly one bin, and a negative one in none. |
| Tiers.Label | segment_and_load.py:50 | The label stored for each tier, which is never the `"nan"` text of a value in no bin. |
| Tiers.LabelInjective | segment_and_load.py:50 | The four labels are distinct, so the stored text identifies the tier. |
| Tiers.EdgesCount | segment_and_load.py:49-58 | The left-side search over the four finite edges counts the edges strictly below `m`, interval by interval. |
| Segmenter.TierText | segment_and_load.py:52-58 | The text passed to the `UPDATE` is the label of the market cap's bin for a non-negative number. It is `"nan"` exactly when the market cap is `NULL`, negative or not a number. |
| Segmenter.UpdateTier | segment_and_load.py:68-72 | Changes only the tier column of the row with exactly that key. A `NULL` coin id matches nothing. The row count is 1 iff the stored tier changed. |
| Segmenter.SweepRows | segment_and_load.py:73-80 | Keeps the keys and every non-tier column. Rows not read stay untouched. Every row whose update raises is recorded as failed and skipped, and the sweep goes on. The count plus the failures never exceeds the rows visited. |
| Segmenter.SweepTable | segment_and_load.py:74-80 | After the sweep, every row that was read, has a coin id and whose update did not fail holds the label of its own market cap. Every other row is unchanged. |
| Segmenter.SweepCount | segment_and_load.py:73-83 | `updated_count` equals the number of distinct rows whose stored tier the successful updates changed. |
| Segmenter.FreshSweepCount | segment_and_load.py:73-83 | On rows with no tier yet and a coin id, the count is the number of distinct keys whose update succeeds. For example, five rows with one failing report 4. |
| Segmenter.SweepSkipsFailedRows | segment_and_load.py:74-80 | Sweeping all rows leaves the same table and count as sweeping only the rows whose update succeeds. |
| Segmenter.SweepWholeTable | segment_and_load.py:45-83 | A sweep over a full read of the table, in any order, leaves it equal to the declarative `Segmented` table and reports its number of changed tiers. |
| Segmenter.Snapshots | segment_and_load.py:45 | The `SELECT` without `WHERE` returns every stored row exactly once, in the server's order, with its stored market cap. |
| Segmenter.RunSegmentation | segment_and_load.py:45-85 | Without a connection nothing is written and nothing is reported. With one, keys and non-tier columns are preserved. The table ends `Segmented`: every row with a coin id whose update succeeds holds its own market cap's label. The count is the number of stored tiers that changed. |
| Segmenter.SegmentationTiersRow | segment_and_load.py:45-83 | A row with a coin id whose update succeeds ends with its own market cap's label and all other columns as stored. |
| Pipeline.RunEtlLoad | etl_crypto.py:179-184 | Data is transformed one-to-one in fetch order. The table changes only if something was fetched and the load committed. A committed load adds exactly the fetched `(now, id)` keys. |
| Pipeline.TransformedKeys | etl_crypto.py:63-65 | The batch's keys are `(now, coin.get("id"))` for the fetched coins. |
| Pipeline.EtlKeepsHistory | etl_crypto.py:60 | Rows stored under any other timestamp are never changed by a run. |
| Pipeline.LoadStoresMetrics | etl_crypto.py:114-143 | Loading the transformed records stores, under each coin's key, the fourteen metrics of the last record for that id. |
| Pipeline.EtlStoresFetchedMetrics | etl_crypto.py:170-182 | After a committed run, each fetched coin's row holds the fourteen metrics fetched last for it, including those fetched before a failed page. |
| Pipeline.LoadInsertsIdentity | etl_crypto.py:106-143 | A coin new to the table takes the `symbol` and `name` of its first record and no tier. |
| Pipeline.EtlInsertsNewCoins | etl_crypto.py:179-182 | The same, end to end from the fetched data. |
| Pipeline.RunPipeline | pipeline_orchestrator.py:10-15 | The ETL part of the result is exactly `run_etl_load` on the given table. Segmentation then reads every row of the table that step left and leaves it `Segmented`. It preserves that table's keys and every non-tier column. Its count is the number of rows whose tier text changed. It reports nothing without a connection. |
| Pipeline.LoadThenSegment | pipeline_orchestrator.py:10-15 | Take a loaded coin with a non-NULL id whose own tier update succeeds. After loading and then segmenting, its row holds the tier of the market cap last loaded for it, whatever other rows' updates do. Its metrics are the ones the load stored. |
| Pipeline.PipelineTiersFetchedCoins | pipeline_orchestrator.py:10-15 | End to end, when the load commits and the connection holds: a fetched coin with a non-NULL id whose own tier update succeeds ends with the tier of the market cap it was last fetched with. Its metrics are the ones the load stored. Other rows' failed updates do not matter. |

## Left out

- The HTTP request is the fetch oracle. Its parameters and status handling, the JSON decoding and its error prints (etl_crypto.py:27-52) are I/O, and `time.sleep` (etl_crypto.py:174) has no effect on the data.
- The connection setup, credentials and cursor lifecycle are not modelled (etl_crypto.py:87-96, 149-152; segment_and_load.py:8-42). Whether the load commits or rolls back becomes the flag `committed`. An unreachable database, a failed read, or a failed `conn.commit()` during segmentation (segment_and_load.py:82, caught at 87) becomes the flag `connected` being false, since nothing that run wrote persists. A per-row `mysql.connector.Error` is the predicate `fails`.
- `datetime.now().isoformat()` is the parameter `now`. The source never shows the table's definition, so the type of the `timestamp` column is unknown. The model assumes that a stored timestamp reads back as the same text, and compares timestamps as exact text. Any conversion a date-time column would apply on the way in, or `read_sql` on the way out, is not modelled.
- Prices and caps are Dafny `real`s, not IEEE doubles. JSON integers and floats are one `Num` case.
- MySQL treats `NULL`s in a unique index as distinct, so several rows with a `NULL` coin id can share a timestamp. The map keyed on `(timestamp, coin_id)` holds at most one of them. Those rows are never updated by the sweep either way.
- The source never shows the type of the `market_cap` column either. The model assumes it is numeric, so a market cap that arrives as text is not stored as a number. The model gives such a value no bin, like `NULL`.
- Keys compare as exact text. The model therefore assumes a binary, case- and accent-sensitive collation on `coin_id`. Under a case-insensitive collation such as MySQL's default, ids like `"abc"` and `"ABC"` under one timestamp would be one row. Both the upsert's unique key (etl_crypto.py:106-128) and the `WHERE coin_id = %s` match (segment_and_load.py:71) would merge them, while the model keeps two rows. `Persister.UpsertAll`, `Persister.UpsertAllFirstIdentity`, `Pipeline.LoadInsertsIdentity` and `Pipeline.RunEtlLoad` rely on this.
- Any exception other than a per-row `mysql.connector.Error` inside the sweep aborts `run_segmentation_update` before `commit` (segment_and_load.py:87-90). It is not modelled: all row updates either succeed or raise `Error`.
- The `executemany` row count and every other message are only printed (etl_crypto.py:145; segment_and_load.py:46, 60-62, 83). So are the sample table through `to_markdown` and the orchestrator's banners.
- script.py, a separate polling loop writing an Excel file, is not part of this model.
- Tiers.SearchSortedLeft: states only its range bound. What it computes on the tier edges is stated by `Tiers.EdgesCount` and `Tiers.Classify`.

=== FILE: fetcher.dfy ===
/** The extract step of `run_etl_load`: page through the market-data endpoint
    until the target row count is reached or a page comes back empty. */
module Fetcher {
  import opened Values
  import opened Records

  /** `fetch_crypto_data(vs_currency, per_page, page)` with the HTTP request
      abstracted to an oracle from `(page, perPage)` to the coin objects
      returned. Every failure path of the request (HTTP error, connection
      error, timeout, malformed JSON) returns the empty sequence. */
  type FetchOracle = (nat, nat) -> seq<RawRecord>

  /** `TARGET_ROWS` and `MAX_PER_PAGE`. */
  const TargetRows: int := 250
  const MaxPerPage: int := 250

  /** One call of the fetch function. */
  datatype Request = Request(page: nat, perPage: nat)

  /** What the loop leaves behind: `all_raw_crypto_data`, and the requests it
      issued, in order. */
  datatype Extraction = Extraction(data: seq<RawRecord>, requests: seq<Request>)

  function Response(fetch: FetchOracle, q: Request): seq<RawRecord>
  {
    fetch(q.page, q.perPage)
  }

  /** Everything the requests `qs` returned, concatenated in request order. */
  function Replay(fetch: FetchOracle, qs: seq<Request>): seq<RawRecord>
  {
    if |qs| == 0 then []
    else Replay(fetch, qs[..|qs| - 1]) + Response(fetch, qs[|qs| - 1])
  }

  /** The requests are the ones the loop issues: pages 1, 2, 3, ... in order,
      each asking for `min(maxPerPage, target - fetched)` items (at least one)
      while fewer than `target` items have been fetched. */
  ghost predicate WellPaged(fetch: FetchOracle, target: int, maxPerPage: int, qs: seq<Request>)
  {
    forall i {:trigger IssuedAsLoopDoes(fetch, target, maxPerPage, qs[..i], qs[i])} | 0 <= i < |qs| ::
      IssuedAsLoopDoes(fetch, target, maxPerPage, qs[..i], qs[i])
  }

  /** `q` is the request the loop issues after the requests `before`. */
  ghost predicate IssuedAsLoopDoes(fetch: FetchOracle, target: int, maxPerPage: int,
                                   before: seq<Request>, q: Request)
  {
    var fetched := |Replay(fetch, before)|;
    && q.page == |before| + 1
    && fetched < target
    && q.perPage == Min(maxPerPage, target - fetched)
    && q.perPage >= 1
  }

  /** Every request but (possibly) the last got a non-empty page. */
  ghost predicate ContinuedOnlyAfterData(fetch: FetchOracle, qs: seq<Request>)
  {
    forall i | 0 <= i < |qs| - 1 :: |Response(fetch, qs[i])| > 0
  }

  /** Why the loop ended: the target was reached, no positive page size was
      left, or the last page came back empty. */
  ghost predicate Stopped(fetch: FetchOracle, target: int, maxPerPage: int, e: Extraction)
  {
    || |e.data| >= target
    || (maxPerPage <= 0 && e.requests == [])
    || (|e.requests| > 0 && Response(fetch, e.requests[|e.requests| - 1]) == [])
  }

  lemma ReplayAppend(fetch: FetchOracle, qs: seq<Request>, q: Request)
    ensures Replay(fetch, qs + [q]) == Replay(fetch, qs) + Response(fetch, q)
  {
    assert (qs + [q])[..|qs|] == qs;
  }

  /** Issuing the next request the loop would issue keeps the trace well paged. */
  lemma NextRequestWellPaged(fetch: FetchOracle, target: int, maxPerPage: int,
                             qs: seq<Request>, q: Request)
    requires WellPaged(fetch, target, maxPerPage, qs)
    requires IssuedAsLoopDoes(fetch, target, maxPerPage, qs, q)
    ensures WellPaged(fetch, target, maxPerPage, qs + [q])
    ensures Replay(fetch, qs + [q]) == Replay(fetch, qs) + Response(fetch, q)
  {
    var qs' := qs + [q];
    ReplayAppend(fetch, qs, q);
    forall i | 0 <= i < |qs'|
      ensures IssuedAsLoopDoes(fetch, target, maxPerPage, qs'[..i], qs'[i])
    {
      if i < |qs| {
        assert qs'[..i] == qs[..i];
        assert qs'[i] == qs[i];
      } else {
        assert qs'[..i] == qs;
      }
    }
  }

  /** A longer prefix of the requests has returned at least as much. */
  lemma {:induction false} ReplayPrefixGrows(fetch: FetchOracle, qs: seq<Request>, i: nat, j: nat)
    requires i <= j <= |qs|
    ensures |Replay(fetch, qs[..i])| <= |Replay(fetch, qs[..j])|
    decreases j - i
  {
    if i < j {
      ReplayPrefixGrows(fetch, qs, i, j - 1);
      assert qs[..j][..j - 1] == qs[..j - 1];
    }
  }

  /** The `while fetched_count < TARGET_ROWS` loop, from the state in which
      `requests` have been issued, all of them answered with data, `data`
      holds their concatenation and `page` is the next page number. */
  function Paginate(fetch: FetchOracle, target: int, maxPerPage: int,
                    page: nat, data: seq<RawRecord>, requests: seq<Request>): (e: Extraction)
    requires page == |requests| + 1
    requires data == Replay(fetch, requests)
    requires WellPaged(fetch, target, maxPerPage, requests)
    requires forall i | 0 <= i < |requests| :: |Response(fetch, requests[i])| > 0
    ensures requests <= e.requests
    ensures data <= e.data
    ensures e.data == Replay(fetch, e.requests)
    ensures WellPaged(fetch, target, maxPerPage, e.requests)
    ensures ContinuedOnlyAfterData(fetch, e.requests)
    ensures Stopped(fetch, target, maxPerPage, e)
    decreases target - |data|
  {
    if |data| >= target then Extraction(data, requests)
    else
      var size := Min(maxPerPage, target - |data|);
      if size <= 0 then
        NoPageSizeNoRequests(fetch, target, maxPerPage, requests);
        Extraction(data, requests)
      else
        var q := Request(page, size);
        var page' := fetch(page, size);
        var requests' := requests + [q];
        NextRequestWellPaged(fetch, target, maxPerPage, requests, q);
        if |page'| > 0 then
          AllAnswered(fetch, requests, q);
          var e := Paginate(fetch, target, maxPerPage, page + 1, data + page', requests');
          PrefixOfExtension(requests, [q], e.requests);
          PrefixOfExtension(data, page', e.data);
          e
        else
          EmptyPageStops(fetch, requests, q);
          Extraction(data, requests')
  }

  /** A trace issued with no positive page size is empty: every request the
      loop issues asks for at least one item. */
  lemma NoPageSizeNoRequests(fetch: FetchOracle, target: int, maxPerPage: int, qs: seq<Request>)
    requires WellPaged(fetch, target, maxPerPage, qs)
    requires maxPerPage <= 0
    ensures qs == []
  {
    assert |qs| > 0 ==> IssuedAsLoopDoes(fetch, target, maxPerPage, qs[..0], qs[0]);
  }

  /** A request answered with an empty page after requests that all got data
      ends a trace that continued only after data. */
  lemma EmptyPageStops(fetch: FetchOracle, qs: seq<Request>, q: Request)
    requires forall i | 0 <= i < |qs| :: |Response(fetch, qs[i])| > 0
    requires Response(fetch, q) == []
    ensures ContinuedOnlyAfterData(fetch, qs + [q])
    ensures Response(fetch, (qs + [q])[|qs + [q]| - 1]) == []
  {
    var qs' := qs + [q];
    forall i | 0 <= i < |qs'| - 1
      ensures |Response(fetch, qs'[i])| > 0
    {
      assert qs'[i] == qs[i];
    }
  }

  /** A sequence is a prefix of anything its extension is a prefix of. */
  lemma PrefixOfExtension<T>(a: seq<T>, x: seq<T>, b: seq<T>)
    requires a + x <= b
    ensures a <= b
  {
    assert b[..|a|] == (a + x)[..|a|] == a;
  }

  /** The whole pagination loop, starting from page 1 with nothing fetched. */
  function FetchAll(fetch: FetchOracle, target: int, maxPerPage: int): (e: Extraction)
    ensures e.data == Replay(fetch, e.requests)
    ensures WellPaged(fetch, target, maxPerPage, e.requests)
    ensures ContinuedOnlyAfterData(fetch, e.requests)
    ensures Stopped(fetch, target, maxPerPage, e)
  {
    Paginate(fetch, target, maxPerPage, 1, [], [])
  }

  /** The extract step as configured: `TARGET_ROWS` items in pages of at
      most `MAX_PER_PAGE`. */
  function Extract(fetch: FetchOracle): (e: Extraction)
    ensures e.data == Replay(fetch, e.requests)
    ensures WellPaged(fetch, TargetRows, MaxPerPage, e.requests)
    ensures ContinuedOnlyAfterData(fetch, e.requests)
    ensures |e.requests| > 0 && e.requests[0] == Request(1, MaxPerPage)
    ensures |e.data| >= TargetRows || Response(fetch, e.requests[|e.requests| - 1]) == []
  {
    var e := FetchAll(fetch, TargetRows, MaxPerPage);
    assert |e.requests| > 0;
    assert IssuedAsLoopDoes(fetch, TargetRows, MaxPerPage, e.requests[..0], e.requests[0]);
    assert e.requests[..0] == [];
    e
  }

  /** When no page is longer than the size asked for, the loop never
      collects more than the target. */
  lemma FetchAllWithinTarget(fetch: FetchOracle, target: int, maxPerPage: int)
    requires target >= 0
    requires forall page: nat, size: nat :: |fetch(page, size)| <= size
    ensures |FetchAll(fetch, target, maxPerPage).data| <= target
  {
    var e := FetchAll(fetch, target, maxPerPage);
    var qs := e.requests;
    if |qs| > 0 {
      var n := |qs| - 1;
      assert qs[..n] + [qs[n]] == qs;
      ReplayAppend(fetch, qs[..n], qs[n]);
      assert IssuedAsLoopDoes(fetch, target, maxPerPage, qs[..n], qs[n]);
      assert |Response(fetch, qs[n])| <= qs[n].perPage;
    }
  }

  /** A first page that already holds the target ends the loop after one
      request. */
  lemma FetchAllSinglePage(fetch: FetchOracle, target: int, maxPerPage: int)
    requires target >= 1 && maxPerPage >= 1
    requires |fetch(1, Min(maxPerPage, target))| >= target
    ensures |FetchAll(fetch, target, maxPerPage).requests| == 1
  {
    var e := FetchAll(fetch, target, maxPerPage);
    var qs := e.requests;
    assert |qs| >= 1;
    assert qs[0] == Request(1, Min(maxPerPage, target)) by {
      assert IssuedAsLoopDoes(fetch, target, maxPerPage, qs[..0], qs[0]);
      assert qs[..0] == [];
    }
    ReplayAppend(fetch, [], qs[0]);
    assert [] + [qs[0]] == qs[..1];
    var n := |qs| - 1;
    assert IssuedAsLoopDoes(fetch, target, maxPerPage, qs[..n], qs[n]);
    // A request after the first is issued only while fewer than `target`
    // items are held, but the first page alone already holds `target`.
    if n >= 1 {
      ReplayPrefixGrows(fetch, qs, 1, n);
    }
  }

  /** One iteration of the loop that received data. */
  lemma PaginateStep(fetch: FetchOracle, target: int, maxPerPage: int,
                     page: nat, data: seq<RawRecord>, requests: seq<Request>)
    requires page == |requests| + 1
    requires data == Replay(fetch, requests)
    requires WellPaged(fetch, target, maxPerPage, requests)
    requires forall i | 0 <= i < |requests| :: |Response(fetch, requests[i])| > 0
    requires |data| < target && maxPerPage >= 1
    requires |fetch(page, Min(maxPerPage, target - |data|))| > 0
    ensures var q := Request(page, Min(maxPerPage, target - |data|));
      && WellPaged(fetch, target, maxPerPage, requests + [q])
      && Replay(fetch, requests + [q]) == data + fetch(q.page, q.perPage)
      && Paginate(fetch, target, maxPerPage, page, data, requests)
         == Paginate(fetch, target, maxPerPage, page + 1, data + fetch(q.page, q.perPage), requests + [q])
  {
    NextRequestWellPaged(fetch, target, maxPerPage, requests, Request(page, Min(maxPerPage, target - |data|)));
  }

  /** How many strides of `step` it takes to cover `amount`. */
  function Strides(amount: int, step: int): nat
    requires step >= 1
    decreases amount
  {
    if amount <= 0 then 0 else 1 + Strides(amount - step, step)
  }

  /** `Strides` is the ceiling of `amount / step`. */
  lemma {:induction false} StridesIsCeiling(amount: int, step: int)
    requires step >= 1 && amount >= 1
    ensures var k := Strides(amount, step); (k - 1) * step < amount <= k * step
    decreases amount
  {
    var k := Strides(amount, step);
    if amount > step {
      StridesIsCeiling(amount - step, step);
      assert (k - 2) * step + step == (k - 1) * step;
      assert (k - 1) * step + step == k * step;
    }
  }

  /** The loop against an endpoint that answers every request with
      `min(size, cap)` items, from any reachable state: it issues one request
      per stride of `min(maxPerPage, cap)` still missing and then holds
      exactly the target. */
  lemma {:induction false} PaginateUnderCap(fetch: FetchOracle, target: int, maxPerPage: int, cap: nat,
                                            page: nat, data: seq<RawRecord>, requests: seq<Request>)
    requires page == |requests| + 1
    requires data == Replay(fetch, requests)
    requires WellPaged(fetch, target, maxPerPage, requests)
    requires forall i | 0 <= i < |requests| :: |Response(fetch, requests[i])| > 0
    requires cap >= 1 && maxPerPage >= 1 && |data| <= target
    requires forall p: nat, size: nat :: |fetch(p, size)| == Min(size, cap)
    ensures var e := Paginate(fetch, target, maxPerPage, page, data, requests);
      && |e.data| == target
      && |e.requests| == |requests| + Strides(target - |data|, Min(maxPerPage, cap))
    decreases target - |data|
  {
    var step := Min(maxPerPage, cap);
    if |data| < target {
      var rem := target - |data|;
      var q := Request(page, Min(maxPerPage, rem));
      var got := fetch(q.page, q.perPage);
      assert |got| == Min(step, rem);
      PaginateStep(fetch, target, maxPerPage, page, data, requests);
      AllAnswered(fetch, requests, q);
      PaginateUnderCap(fetch, target, maxPerPage, cap, page + 1, data + got, requests + [q]);
      StridesStep(rem, step, |got|);
    }
  }

  /** A request answered with data after requests that all got data. */
  lemma AllAnswered(fetch: FetchOracle, qs: seq<Request>, q: Request)
    requires forall i | 0 <= i < |qs| :: |Response(fetch, qs[i])| > 0
    requires |Response(fetch, q)| > 0
    ensures forall i | 0 <= i < |qs + [q]| :: |Response(fetch, (qs + [q])[i])| > 0
  {
    var qs' := qs + [q];
    forall i | 0 <= i < |qs'|
      ensures |Response(fetch, qs'[i])| > 0
    {
      if i < |qs| {
        assert qs'[i] == qs[i];
      }
    }
  }

  lemma StridesStep(rem: int, step: int, got: int)
    requires step >= 1 && rem >= 1 && got == Min(step, rem)
    ensures Strides(rem, step) == 1 + Strides(rem - got, step)
  {
  }

  /** Against an endpoint that answers every request with exactly
      `min(size, cap)` items the loop
      collects exactly the target in `ceil(target / min(maxPerPage, cap))`
      requests: 250 items at 100 per page take three. */
  lemma FetchAllUnderCap(fetch: FetchOracle, target: nat, maxPerPage: int, cap: nat)
    requires cap >= 1 && maxPerPage >= 1
    requires forall p: nat, size: nat :: |fetch(p, size)| == Min(size, cap)
    ensures var e := FetchAll(fetch, target, maxPerPage);
      var k := |e.requests|;
      && |e.data| == target
      && (target == 0 ==> k == 0)
      && (target > 0 ==> (k - 1) * Min(maxPerPage, cap) < target <= k * Min(maxPerPage, cap))
  {
    PaginateUnderCap(fetch, target, maxPerPage, cap, 1, [], []);
    if target > 0 {
      StridesIsCeiling(target, Min(maxPerPage, cap));
    }
  }
}

=== FILE: persister.dfy ===
/** `insert_data_mysql`: the batch `INSERT ... ON DUPLICATE KEY UPDATE` into
    `crypto_prices`, with the table modelled as a map from its unique key
    `(timestamp, coin_id)` to the rest of the row. */
module Persister {
  import opened Values
  import opened Records

  /** The non-key columns of a stored row; `tier` is the `market_cap_tier`
      column the segmentation step fills in (`None` is SQL `NULL`). */
  datatype Row = Row(symbol: Value, name: Value, metrics: Metrics, tier: Option<string>)

  type Table = map<Key, Row>

  /** The column of a stored row that a source field is loaded into. `Id`
      is loaded into the key, not the row, and reads as `Null` here. */
  function Cell(row: Row, f: Field): Value
  {
    match f
    case Id => Null
    case Symbol => row.symbol
    case Name => row.name
    case _ => MetricOf(row.metrics, f)
  }

  /** The columns listed after `ON DUPLICATE KEY UPDATE`, each set to
      `VALUES(column)`. `symbol` and `name` are not among them. */
  const UpdatedOnDuplicate: set<Field> :=
    {CurrentPrice, MarketCap, TotalVolume, High24h, Low24h, PriceChange24h,
     PriceChangePercentage24h, MarketCapChange24h, MarketCapChangePercentage24h,
     CirculatingSupply, TotalSupply, MaxSupply, Ath, Atl}

  /** Two rows sharing their metrics agree on every column the duplicate-key
      branch updates. */
  lemma MetricCells(row: Row, p: PricePoint, f: Field)
    requires row.metrics == p.metrics && f in UpdatedOnDuplicate
    ensures Cell(row, f) == FieldOf(p, f)
  {
  }

  /** The row the plain `INSERT` branch creates; the tier column is left `NULL`. */
  function Inserted(p: PricePoint): Row
  {
    Row(p.symbol, p.name, p.metrics, None)
  }

  /** The row the `ON DUPLICATE KEY UPDATE` branch leaves behind. */
  function Overwritten(stored: Row, p: PricePoint): Row
  {
    stored.(metrics := p.metrics)
  }

  /** `row` holds exactly what the `INSERT` branch writes for `p`: every
      source column from `p` and a `NULL` tier. */
  ghost predicate InsertedFrom(row: Row, p: PricePoint)
  {
    && (forall f | f != Id :: Cell(row, f) == FieldOf(p, f))
    && row.tier == None
  }

  /** `row` holds exactly what the `ON DUPLICATE KEY UPDATE` branch writes
      over `stored`: the listed columns from `p`, every other column and the
      tier as stored. */
  ghost predicate OverwrittenFrom(row: Row, stored: Row, p: PricePoint)
  {
    && (forall f | f != Id :: Cell(row, f) == if f in UpdatedOnDuplicate then FieldOf(p, f) else Cell(stored, f))
    && row.tier == stored.tier
  }

  lemma InsertedCells(p: PricePoint)
    ensures InsertedFrom(Inserted(p), p)
  {
    forall f | f != Id
      ensures Cell(Inserted(p), f) == FieldOf(p, f)
    {
      match f
      case Symbol =>
      case Name =>
      case _ =>
    }
  }

  lemma OverwrittenCells(stored: Row, p: PricePoint)
    ensures OverwrittenFrom(Overwritten(stored, p), stored, p)
  {
    forall f | f != Id
      ensures Cell(Overwritten(stored, p), f) == if f in UpdatedOnDuplicate then FieldOf(p, f) else Cell(stored, f)
    {
      match f
      case Id =>
      case Symbol =>
      case Name =>
      case CurrentPrice =>
      case MarketCap =>
      case TotalVolume =>
      case High24h =>
      case Low24h =>
      case PriceChange24h =>
      case PriceChangePercentage24h =>
      case MarketCapChange24h =>
      case MarketCapChangePercentage24h =>
      case CirculatingSupply =>
      case TotalSupply =>
      case MaxSupply =>
      case Ath =>
      case Atl =>
    }
  }

  /** The row the statement leaves under `p`'s key. */
  function Upserted(t: Table, p: PricePoint): (row: Row)
    ensures row.metrics == p.metrics
    ensures KeyOf(p) in t ==> row.symbol == t[KeyOf(p)].symbol && row.name == t[KeyOf(p)].name && row.tier == t[KeyOf(p)].tier
    ensures KeyOf(p) !in t ==> row.symbol == p.symbol && row.name == p.name && row.tier == None
  {
    if KeyOf(p) in t then Overwritten(t[KeyOf(p)], p) else Inserted(p)
  }

  /** One row of the statement: insert under a new key; under an existing key
      overwrite exactly the fourteen listed columns and keep `symbol`, `name`
      and the tier as stored. No other key is touched. */
  function UpsertRow(t: Table, p: PricePoint): (r: Table)
    ensures r.Keys == t.Keys + {KeyOf(p)}
    ensures r[KeyOf(p)] == Upserted(t, p)
    ensures forall k | k in t && k != KeyOf(p) :: r[k] == t[k]
  {
    t[KeyOf(p) := Upserted(t, p)]
  }

  /** Two tables with the same keys and the same row under each key are
      equal. */
  lemma SameRows(a: Table, b: Table)
    requires a.Keys == b.Keys
    requires forall k | k in a :: a[k] == b[k]
    ensures a == b
  {
  }

  /** The keys a batch of price points is stored under. */
  function BatchKeys(batch: seq<PricePoint>): set<Key>
  {
    set p | p in batch :: KeyOf(p)
  }

  /** `cursor.executemany(insert_sql, rows_to_insert)`: the rows applied one
      after the other, first to last. */
  function UpsertAll(t: Table, batch: seq<PricePoint>): (r: Table)
    ensures r.Keys == t.Keys + BatchKeys(batch)
  {
    if |batch| == 0 then t
    else
      var n := |batch| - 1;
      assert batch == batch[..n] + [batch[n]];
      UpsertRow(UpsertAll(t, batch[..n]), batch[n])
  }

  /** One row of the statement keeps the `symbol`, `name` and tier stored
      under any key that was already there. */
  lemma UpsertRowKeepsIdentity(t: Table, p: PricePoint, k: Key)
    requires k in t
    ensures var r := UpsertRow(t, p);
      r[k].symbol == t[k].symbol && r[k].name == t[k].name && r[k].tier == t[k].tier
  {
  }

  /** One row of the statement under a new key stores `p`'s `symbol` and
      `name` and no tier. */
  lemma UpsertRowInserts(t: Table, p: PricePoint)
    requires KeyOf(p) !in t
    ensures var r := UpsertRow(t, p);
      r[KeyOf(p)].symbol == p.symbol && r[KeyOf(p)].name == p.name && r[KeyOf(p)].tier == None
  {
  }

  /** No later row of the batch has the key of row `i`. */
  ghost predicate LastWithKey(batch: seq<PricePoint>, i: int)
    requires 0 <= i < |batch|
  {
    forall j | i < j < |batch| :: KeyOf(batch[j]) != KeyOf(batch[i])
  }

  /** No earlier row of the batch has the key of row `i`. */
  ghost predicate FirstWithKey(batch: seq<PricePoint>, i: int)
    requires 0 <= i < |batch|
  {
    forall j | 0 <= j < i :: KeyOf(batch[j]) != KeyOf(batch[i])
  }

  /** The last row of a non-empty batch is applied to the table the rest of
      the batch leaves. */
  lemma UpsertAllStep(t: Table, batch: seq<PricePoint>)
    requires |batch| > 0
    ensures UpsertAll(t, batch) == UpsertRow(UpsertAll(t, batch[..|batch| - 1]), batch[|batch| - 1])
  {
  }

  /** A row of the batch other than the last is a row of the batch without
      its last row, at the same position. */
  lemma InitRow(batch: seq<PricePoint>, i: int)
    requires 0 <= i < |batch| - 1
    ensures batch[..|batch| - 1][i] == batch[i]
  {
  }

  /** A key the batch does not mention keeps its stored row. */
  lemma {:induction false} UpsertAllUntouched(t: Table, batch: seq<PricePoint>, k: Key)
    requires k in t
    requires forall i | 0 <= i < |batch| :: KeyOf(batch[i]) != k
    ensures UpsertAll(t, batch)[k] == t[k]
  {
    if |batch| > 0 {
      var n := |batch| - 1;
      var init := batch[..n];
      forall i | 0 <= i < n
        ensures KeyOf(init[i]) != k
      {
        InitRow(batch, i);
      }
      UpsertAllUntouched(t, init, k);
      var before := UpsertAll(t, init);
      UpsertAllStep(t, batch);
      assert k in before && KeyOf(batch[n]) != k;
      assert UpsertRow(before, batch[n])[k] == before[k];
    }
  }

  /** The metric columns under a key come from the last batch row with that
      key: later duplicates overwrite earlier ones. */
  lemma {:induction false} UpsertAllLastMetrics(t: Table, batch: seq<PricePoint>, i: int)
    requires 0 <= i < |batch| && LastWithKey(batch, i)
    ensures UpsertAll(t, batch)[KeyOf(batch[i])].metrics == batch[i].metrics
  {
    var n := |batch| - 1;
    if i < n {
      LastWithKeyInit(batch, i);
      UpsertAllLastMetrics(t, batch[..n], i);
      KeyStored(t, batch[..n], i);
      UpsertAllOtherRow(t, batch, KeyOf(batch[i]));
    } else {
      UpsertAllLastRow(t, batch);
    }
  }

  /** The last row of a non-empty batch leaves its own metrics under its key. */
  lemma UpsertAllLastRow(t: Table, batch: seq<PricePoint>)
    requires |batch| > 0
    ensures UpsertAll(t, batch)[KeyOf(batch[|batch| - 1])].metrics == batch[|batch| - 1].metrics
  {
    UpsertAllStep(t, batch);
  }

  /** The last row of a non-empty batch does not touch another stored key. */
  lemma UpsertAllOtherRow(t: Table, batch: seq<PricePoint>, k: Key)
    requires |batch| > 0 && k in UpsertAll(t, batch[..|batch| - 1])
    requires KeyOf(batch[|batch| - 1]) != k
    ensures UpsertAll(t, batch)[k] == UpsertAll(t, batch[..|batch| - 1])[k]
  {
    UpsertAllStep(t, batch);
  }

  /** Dropping the last row of the batch keeps row `i` last with its key. */
  lemma LastWithKeyInit(batch: seq<PricePoint>, i: int)
    requires 0 <= i < |batch| - 1 && LastWithKey(batch, i)
    ensures batch[..|batch| - 1][i] == batch[i]
    ensures LastWithKey(batch[..|batch| - 1], i)
    ensures KeyOf(batch[|batch| - 1]) != KeyOf(batch[i])
  {
    var init := batch[..|batch| - 1];
    forall j | i < j < |init|
      ensures KeyOf(init[j]) != KeyOf(init[i])
    {
      InitRow(batch, j);
    }
  }

  /** The key of every batch row is stored after the batch. */
  lemma KeyStored(t: Table, batch: seq<PricePoint>, i: int)
    requires 0 <= i < |batch|
    ensures KeyOf(batch[i]) in UpsertAll(t, batch)
  {
    assert batch[i] in batch;
  }

  /** A key that was stored keeps its `symbol`, `name` and tier whatever the
      batch holds. */
  lemma {:induction false} UpsertAllKeepsIdentity(t: Table, batch: seq<PricePoint>, k: Key)
    requires k in t
    ensures var r := UpsertAll(t, batch);
      r[k].symbol == t[k].symbol && r[k].name == t[k].name && r[k].tier == t[k].tier
  {
    if |batch| > 0 {
      UpsertAllKeepsIdentity(t, batch[..|batch| - 1], k);
    }
  }

  /** A key that was not stored takes `symbol` and `name` from the first batch
      row with that key, and its tier is `NULL`. */
  lemma {:induction false} UpsertAllFirstIdentity(t: Table, batch: seq<PricePoint>, i: int)
    requires 0 <= i < |batch| && FirstWithKey(batch, i) && KeyOf(batch[i]) !in t
    ensures var r := UpsertAll(t, batch); var k := KeyOf(batch[i]);
      r[k].symbol == batch[i].symbol && r[k].name == batch[i].name && r[k].tier == None
  {
    var n := |batch| - 1;
    var init := batch[..n];
    var k := KeyOf(batch[i]);
    var before := UpsertAll(t, init);
    if i < n {
      assert init[i] == batch[i];
      assert FirstWithKey(init, i) by {
        forall j | 0 <= j < i
          ensures KeyOf(init[j]) != k
        {
          assert init[j] == batch[j];
        }
      }
      UpsertAllFirstIdentity(t, init, i);
      assert k in before by {
        assert init[i] in init;
      }
      UpsertRowKeepsIdentity(before, batch[n], k);
    } else {
      assert k !in BatchKeys(init) by {
        forall p | p in init
          ensures KeyOf(p) != k
        {
          var j :| 0 <= j < n && init[j] == p;
          assert init[j] == batch[j];
        }
      }
      assert k !in before;
      UpsertRowInserts(before, batch[n]);
    }
  }

  /** Column by column, one row of the statement writes what the SQL text
      says: a new key gets every source column and a `NULL` tier; an existing
      key gets the fourteen listed columns from `p` and keeps all others. */
  lemma UpsertRowColumns(t: Table, p: PricePoint)
    ensures KeyOf(p) !in t ==> InsertedFrom(UpsertRow(t, p)[KeyOf(p)], p)
    ensures KeyOf(p) in t ==> OverwrittenFrom(UpsertRow(t, p)[KeyOf(p)], t[KeyOf(p)], p)
  {
    if KeyOf(p) in t {
      OverwrittenCells(t[KeyOf(p)], p);
    } else {
      InsertedCells(p);
    }
  }

  /** A key of the batch has a last row in the batch. */
  lemma LastOccurrence(batch: seq<PricePoint>, k: Key) returns (i: int)
    requires k in BatchKeys(batch)
    ensures 0 <= i < |batch| && KeyOf(batch[i]) == k && LastWithKey(batch, i)
  {
    i := |batch| - 1;
    while KeyOf(batch[i]) != k
      invariant 0 <= i < |batch|
      invariant forall j | i < j < |batch| :: KeyOf(batch[j]) != k
      decreases i
    {
      if i == 0 {
        var p :| p in batch && KeyOf(p) == k;
        var j :| 0 <= j < |batch| && batch[j] == p;
        assert false;
      }
      i := i - 1;
    }
  }

  /** Running the same batch again changes nothing: a rerun with the same
      timestamp is idempotent and never duplicates a key. */
  lemma UpsertAllIdempotent(t: Table, batch: seq<PricePoint>)
    ensures UpsertAll(UpsertAll(t, batch), batch) == UpsertAll(t, batch)
  {
    var r1 := UpsertAll(t, batch);
    var r2 := UpsertAll(r1, batch);
    var keys := BatchKeys(batch);
    assert r2.Keys == r1.Keys;
    forall k | k in r1
      ensures r2[k] == r1[k]
    {
      if k in keys {
        var i := LastOccurrence(batch, k);
        UpsertAllLastMetrics(t, batch, i);
        UpsertAllLastMetrics(r1, batch, i);
        UpsertAllKeepsIdentity(r1, batch, k);
      } else {
        assert forall i | 0 <= i < |batch| :: KeyOf(batch[i]) != k by {
          forall i | 0 <= i < |batch|
            ensures KeyOf(batch[i]) != k
          {
            assert batch[i] in batch;
          }
        }
        UpsertAllUntouched(r1, batch, k);
      }
    }
    SameRows(r2, r1);
  }
}

=== FILE: pipeline.dfy ===
/** `run_etl_load` and the orchestrator that runs it before
    `run_segmentation_update`. */
module Pipeline {
  import opened Values
  import opened Records
  import opened Fetcher
  import opened Transformer
  import opened Persister
  import opened Segmenter

  /** What one ETL run leaves behind: the extraction, the transformed batch
      handed to the loader, and the table afterwards. */
  datatype EtlRun = EtlRun(extraction: Extraction, batch: seq<PricePoint>, table: Table)

  /** The keys `(timestamp, coin_id)` the fetched records are stored under. */
  function FetchedKeys(data: seq<RawRecord>, now: Timestamp): (keys: set<Key>)
    ensures forall i | 0 <= i < |data| :: (now, Get(data[i], "id")) in keys
    ensures forall k | k in keys :: k.0 == now
  {
    set i | 0 <= i < |data| :: (now, Get(data[i], "id"))
  }

  /** `run_etl_load`: extract, transform with the clock reading `now`, and
      load only when something was fetched. `committed` says whether the
      loader's `executemany` and `commit` succeed; when the connection fails
      or the batch raises and is rolled back, the table is as it was. */
  function RunEtlLoad(fetch: FetchOracle, now: Timestamp, t: Table, committed: bool): (r: EtlRun)
    ensures r.extraction == Extract(fetch)
    ensures |r.batch| == |r.extraction.data|
    ensures forall i | 0 <= i < |r.batch| :: KeyOf(r.batch[i]) == (now, Get(r.extraction.data[i], "id"))
    ensures !committed || |r.extraction.data| == 0 ==> r.table == t
    ensures committed ==> r.table.Keys == t.Keys + FetchedKeys(r.extraction.data, now)
  {
    var e := Extract(fetch);
    var batch := TransformData(e.data, now);
    var table := if |e.data| > 0 && committed then UpsertAll(t, batch) else t;
    TransformedKeys(e.data, now, batch);
    EtlRun(e, batch, table)
  }

  /** The keys of the transformed batch are the keys of the fetched records. */
  lemma TransformedKeys(data: seq<RawRecord>, now: Timestamp, batch: seq<PricePoint>)
    requires batch == TransformData(data, now)
    ensures BatchKeys(batch) == FetchedKeys(data, now)
  {
    forall k | k in FetchedKeys(data, now)
      ensures k in BatchKeys(batch)
    {
      var i :| 0 <= i < |data| && k == (now, Get(data[i], "id"));
      assert KeyOf(batch[i]) == k;
    }
  }

  /** Rows stored under another timestamp are history: a run never changes
      them, whatever it fetched. */
  lemma EtlKeepsHistory(fetch: FetchOracle, now: Timestamp, t: Table, committed: bool, k: Key)
    requires k in t && k.0 != now
    ensures RunEtlLoad(fetch, now, t, committed).table[k] == t[k]
  {
    var r := RunEtlLoad(fetch, now, t, committed);
    if committed && |r.extraction.data| > 0 {
      UpsertAllUntouched(t, r.batch, k);
    }
  }

  /** Loading the transformed records: the row of a coin holds the metrics of
      the last record for its id. */
  lemma LoadStoresMetrics(t: Table, data: seq<RawRecord>, now: Timestamp, i: int)
    requires 0 <= i < |data|
    requires forall j | i < j < |data| :: Get(data[j], "id") != Get(data[i], "id")
    ensures var r := UpsertAll(t, TransformData(data, now));
      var k := (now, Get(data[i], "id"));
      && k in r
      && forall f | f in UpdatedOnDuplicate :: Cell(r[k], f) == Get(data[i], JsonKey(f))
    ensures UpsertAll(t, TransformData(data, now))[(now, Get(data[i], "id"))].metrics
      == TransformData(data, now)[i].metrics
  {
    var batch := TransformData(data, now);
    var r := UpsertAll(t, batch);
    var k := (now, Get(data[i], "id"));
    assert KeyOf(batch[i]) == k;
    assert LastWithKey(batch, i);
    UpsertAllLastMetrics(t, batch, i);
    TransformRecordFields(data[i], now);
    forall f | f in UpdatedOnDuplicate
      ensures Cell(r[k], f) == Get(data[i], JsonKey(f))
    {
      MetricCells(r[k], batch[i], f);
    }
  }

  /** After a committed run, the row of a fetched coin holds the metrics of
      the last record fetched for that coin id. */
  lemma EtlStoresFetchedMetrics(fetch: FetchOracle, now: Timestamp, t: Table, i: int)
    requires var data := Extract(fetch).data;
      && 0 <= i < |data|
      && forall j | i < j < |data| :: Get(data[j], "id") != Get(data[i], "id")
    ensures var r := RunEtlLoad(fetch, now, t, true);
      var k := (now, Get(r.extraction.data[i], "id"));
      && k in r.table
      && forall f | f in UpdatedOnDuplicate :: Cell(r.table[k], f) == Get(r.extraction.data[i], JsonKey(f))
  {
    LoadStoresMetrics(t, Extract(fetch).data, now, i);
  }

  /** Loading the transformed records: a coin not stored before takes its
      symbol and name from the first record for its id, and no tier. */
  lemma LoadInsertsIdentity(t: Table, data: seq<RawRecord>, now: Timestamp, i: int)
    requires 0 <= i < |data| && (now, Get(data[i], "id")) !in t
    requires forall j | 0 <= j < i :: Get(data[j], "id") != Get(data[i], "id")
    ensures var r := UpsertAll(t, TransformData(data, now));
      var k := (now, Get(data[i], "id"));
      && k in r
      && r[k].symbol == Get(data[i], "symbol")
      && r[k].name == Get(data[i], "name")
      && r[k].tier == None
  {
    var batch := TransformData(data, now);
    assert KeyOf(batch[i]) == (now, Get(data[i], "id"));
    assert FirstWithKey(batch, i);
    UpsertAllFirstIdentity(t, batch, i);
    TransformRecordFields(data[i], now);
    assert FieldOf(batch[i], Symbol) == Get(data[i], JsonKey(Symbol));
    assert FieldOf(batch[i], Name) == Get(data[i], JsonKey(Name));
  }

  /** A committed run stores a coin seen for the first time with the symbol
      and name of its first fetched record and no tier yet. */
  lemma EtlInsertsNewCoins(fetch: FetchOracle, now: Timestamp, t: Table, i: int)
    requires var data := Extract(fetch).data;
      && 0 <= i < |data|
      && (now, Get(data[i], "id")) !in t
      && forall j | 0 <= j < i :: Get(data[j], "id") != Get(data[i], "id")
    ensures var r := RunEtlLoad(fetch, now, t, true);
      var k := (now, Get(r.extraction.data[i], "id"));
      && k in r.table
      && r.table[k].symbol == Get(r.extraction.data[i], "symbol")
      && r.table[k].name == Get(r.extraction.data[i], "name")
      && r.table[k].tier == None
  {
    LoadInsertsIdentity(t, Extract(fetch).data, now, i);
  }

  /** The orchestrator's result: the ETL run and the segmentation run after it. */
  datatype PipelineRun = PipelineRun(etl: EtlRun, segmentation: Option<Sweep>)

  /** `pipeline_orchestrator.py`: `run_etl_load()` then
      `run_segmentation_update()`, the second reading the table the first
      left behind. */
  function RunPipeline(fetch: FetchOracle, now: Timestamp, t: Table, committed: bool,
                       order: seq<Key>, connected: bool, fails: Key -> bool): (r: PipelineRun)
    requires ScanOrder(order, RunEtlLoad(fetch, now, t, committed).table)
    ensures r.etl == RunEtlLoad(fetch, now, t, committed)
    ensures r.segmentation.None? <==> !connected
    ensures r.segmentation.Some? ==> r.segmentation.value.table.Keys == r.etl.table.Keys
    ensures r.segmentation.Some? ==> forall k | k in r.etl.table ::
      r.segmentation.value.table[k].(tier := None) == r.etl.table[k].(tier := None)
    ensures r.segmentation.Some? ==> r.segmentation.value.table == Segmented(r.etl.table, fails)
    ensures r.segmentation.Some? ==> r.segmentation.value.updated == |Changed(r.etl.table, r.etl.table.Keys, fails)|
  {
    var etl := RunEtlLoad(fetch, now, t, committed);
    PipelineRun(etl, RunSegmentation(etl.table, order, connected, fails))
  }

  /** Loading the transformed records and then segmenting the table: the row
      of a coin with an id whose own update does not fail holds the tier of
      the market cap last loaded for it, whatever other rows' updates do. */
  lemma LoadThenSegment(t: Table, data: seq<RawRecord>, now: Timestamp,
                        order: seq<Key>, fails: Key -> bool, i: int)
    requires ScanOrder(order, UpsertAll(t, TransformData(data, now)))
    requires 0 <= i < |data| && Get(data[i], "id") != Null
    requires !fails((now, Get(data[i], "id")))
    requires forall j | i < j < |data| :: Get(data[j], "id") != Get(data[i], "id")
    ensures var loaded := UpsertAll(t, TransformData(data, now));
      var r := RunSegmentation(loaded, order, true, fails).value;
      var k := (now, Get(data[i], "id"));
      && k in r.table
      && r.table[k].tier == Some(TierText(Get(data[i], "market_cap")))
      && r.table[k].metrics == loaded[k].metrics
  {
    var loaded := UpsertAll(t, TransformData(data, now));
    var k := (now, Get(data[i], "id"));
    LoadStoresMetrics(t, data, now, i);
    var p := TransformData(data, now)[i];
    MarketCapField(p);
    TransformRecordFields(data[i], now);
    assert FieldOf(p, MarketCap) == Get(data[i], JsonKey(MarketCap));
    SegmentationTiersRow(loaded, order, fails, k);
  }

  /** End to end: when the load commits and the coin's own tier update does
      not fail, a fetched coin with an id ends up holding the tier of the
      market cap it was last fetched with, whatever other rows' updates do. */
  lemma PipelineTiersFetchedCoins(fetch: FetchOracle, now: Timestamp, t: Table,
                                  order: seq<Key>, fails: Key -> bool, i: int)
    requires ScanOrder(order, RunEtlLoad(fetch, now, t, true).table)
    requires var data := Extract(fetch).data;
      && 0 <= i < |data|
      && Get(data[i], "id") != Null
      && !fails((now, Get(data[i], "id")))
      && forall j | i < j < |data| :: Get(data[j], "id") != Get(data[i], "id")
    ensures var r := RunPipeline(fetch, now, t, true, order, true, fails);
      var raw := r.etl.extraction.data[i];
      var k := (now, Get(raw, "id"));
      && k in r.segmentation.value.table
      && r.segmentation.value.table[k].tier == Some(TierText(Get(raw, "market_cap")))
      && r.segmentation.value.table[k].metrics == r.etl.table[k].metrics
  {
    LoadThenSegment(t, Extract(fetch).data, now, order, fails, i);
  }
}

=== FILE: records.dfy ===
/** The records of the pipeline: the raw per-coin JSON object returned by the
    market-data endpoint, and the transformed price point that is persisted. */
module Records {
  import opened Values

  /** `datetime.now().isoformat()`; only compared for equality. */
  type Timestamp = string

  /** One coin object of the endpoint's JSON array: a dictionary. */
  type RawRecord = map<string, Value>

  /** `coin.get(key)`: a missing key reads as `None`. */
  function Get(coin: RawRecord, key: string): Value
  {
    if key in coin then coin[key] else Null
  }

  /** The seventeen fields the transform copies out of a coin object. */
  datatype Field =
    | Id | Symbol | Name | CurrentPrice | MarketCap | TotalVolume | High24h | Low24h
    | PriceChange24h | PriceChangePercentage24h | MarketCapChange24h
    | MarketCapChangePercentage24h | CirculatingSupply | TotalSupply | MaxSupply
    | Ath | Atl

  /** The JSON key each field is read from (also its column name, except `id`,
      which is stored as `coin_id`). */
  function JsonKey(f: Field): string
  {
    match f
    case Id => "id"
    case Symbol => "symbol"
    case Name => "name"
    case CurrentPrice => "current_price"
    case MarketCap => "market_cap"
    case TotalVolume => "total_volume"
    case High24h => "high_24h"
    case Low24h => "low_24h"
    case PriceChange24h => "price_change_24h"
    case PriceChangePercentage24h => "price_change_percentage_24h"
    case MarketCapChange24h => "market_cap_change_24h"
    case MarketCapChangePercentage24h => "market_cap_change_percentage_24h"
    case CirculatingSupply => "circulating_supply"
    case TotalSupply => "total_supply"
    case MaxSupply => "max_supply"
    case Ath => "ath"
    case Atl => "atl"
  }

  const AllFields: set<Field> :=
    {Id, Symbol, Name, CurrentPrice, MarketCap, TotalVolume, High24h, Low24h,
     PriceChange24h, PriceChangePercentage24h, MarketCapChange24h,
     MarketCapChangePercentage24h, CirculatingSupply, TotalSupply, MaxSupply,
     Ath, Atl}

  /** The fourteen price and supply columns of a price point. */
  datatype Metrics = Metrics(
    currentPrice: Value,
    marketCap: Value,
    totalVolume: Value,
    high24h: Value,
    low24h: Value,
    priceChange24h: Value,
    priceChangePercentage24h: Value,
    marketCapChange24h: Value,
    marketCapChangePercentage24h: Value,
    circulatingSupply: Value,
    totalSupply: Value,
    maxSupply: Value,
    ath: Value,
    atl: Value)

  /** A transformed record: one row of `crypto_prices` before it is stored. */
  datatype PricePoint = PricePoint(
    timestamp: Timestamp,
    coinId: Value,
    symbol: Value,
    name: Value,
    metrics: Metrics)

  /** The table's unique key `(timestamp, coin_id)`. Two keys are the same
      only when their texts are identical, as under a binary collation. */
  type Key = (Timestamp, Value)

  function KeyOf(p: PricePoint): Key
  {
    (p.timestamp, p.coinId)
  }

  /** The value a price point holds for a source field. */
  function FieldOf(p: PricePoint, f: Field): Value
  {
    match f
    case Id => p.coinId
    case Symbol => p.symbol
    case Name => p.name
    case _ => MetricOf(p.metrics, f)
  }

  /** The value of one of the fourteen metric columns (`Null` for the three
      identity fields, which are not metrics). */
  function MetricOf(m: Metrics, f: Field): Value
  {
    match f
    case CurrentPrice => m.currentPrice
    case MarketCap => m.marketCap
    case TotalVolume => m.totalVolume
    case High24h => m.high24h
    case Low24h => m.low24h
    case PriceChange24h => m.priceChange24h
    case PriceChangePercentage24h => m.priceChangePercentage24h
    case MarketCapChange24h => m.marketCapChange24h
    case MarketCapChangePercentage24h => m.marketCapChangePercentage24h
    case CirculatingSupply => m.circulatingSupply
    case TotalSupply => m.totalSupply
    case MaxSupply => m.maxSupply
    case Ath => m.ath
    case Atl => m.atl
    case _ => Null
  }

  /** A price point is determined by its timestamp and its seventeen fields. */
  lemma PricePointExtensional(p: PricePoint, q: PricePoint)
    requires p.timestamp == q.timestamp
    requires forall f :: FieldOf(p, f) == FieldOf(q, f)
    ensures p == q
  {
    assert p.coinId == q.coinId by { assert FieldOf(p, Id) == FieldOf(q, Id); }
    assert p.symbol == q.symbol by { assert FieldOf(p, Symbol) == FieldOf(q, Symbol); }
    assert p.name == q.name by { assert FieldOf(p, Name) == FieldOf(q, Name); }
    forall f
      ensures MetricOf(p.metrics, f) == MetricOf(q.metrics, f)
    {
      assert FieldOf(p, f) == FieldOf(q, f);
    }
    MetricsExtensional(p.metrics, q.metrics);
  }

  /** The fourteen metrics determine a `Metrics` value. */
  lemma MetricsExtensional(m: Metrics, n: Metrics)
    requires forall f :: MetricOf(m, f) == MetricOf(n, f)
    ensures m == n
  {
    assert m.currentPrice == n.currentPrice by { assert MetricOf(m, CurrentPrice) == MetricOf(n, CurrentPrice); }
    assert m.marketCap == n.marketCap by { assert MetricOf(m, MarketCap) == MetricOf(n, MarketCap); }
    assert m.totalVolume == n.totalVolume by { assert MetricOf(m, TotalVolume) == MetricOf(n, TotalVolume); }
    assert m.high24h == n.high24h by { assert MetricOf(m, High24h) == MetricOf(n, High24h); }
    assert m.low24h == n.low24h by { assert MetricOf(m, Low24h) == MetricOf(n, Low24h); }
    assert m.priceChange24h == n.priceChange24h by { assert MetricOf(m, PriceChange24h) == MetricOf(n, PriceChange24h); }
    assert m.priceChangePercentage24h == n.priceChangePercentage24h by { assert MetricOf(m, PriceChangePercentage24h) == MetricOf(n, PriceChangePercentage24h); }
    assert m.marketCapChange24h == n.marketCapChange24h by { assert MetricOf(m, MarketCapChange24h) == MetricOf(n, MarketCapChange24h); }
    assert m.marketCapChangePercentage24h == n.marketCapChangePercentage24h by { assert MetricOf(m, MarketCapChangePercentage24h) == MetricOf(n, MarketCapChangePercentage24h); }
    assert m.circulatingSupply == n.circulatingSupply by { assert MetricOf(m, CirculatingSupply) == MetricOf(n, CirculatingSupply); }
    assert m.totalSupply == n.totalSupply by { assert MetricOf(m, TotalSupply) == MetricOf(n, TotalSupply); }
    assert m.maxSupply == n.maxSupply by { assert MetricOf(m, MaxSupply) == MetricOf(n, MaxSupply); }
    assert m.ath == n.ath by { assert MetricOf(m, Ath) == MetricOf(n, Ath); }
    assert m.atl == n.atl by { assert MetricOf(m, Atl) == MetricOf(n, Atl); }
  }

  /** Every field is one of the seventeen the transform writes. */
  lemma FieldListed(f: Field)
    ensures f in AllFields
  {
  }

  /** Distinct fields are read from distinct JSON keys. */
  lemma JsonKeyInjective()
    ensures forall f, g :: JsonKey(f) == JsonKey(g) ==> f == g
  {
  }

  /** The `market_cap` field is the `marketCap` metric. */
  lemma MarketCapField(p: PricePoint)
    ensures FieldOf(p, MarketCap) == p.metrics.marketCap
    ensures JsonKey(MarketCap) == "market_cap"
  {
  }
}

=== FILE: segmenter.dfy ===
/** `run_segmentation_update`: read `(timestamp, coin_id, market_cap)` for
    every stored row, classify the market cap, and write the tier label back
    row by row, skipping rows whose update fails. */
module Segmenter {
  import opened Values
  import opened Records
  import opened Persister
  import opened Tiers

  /** One row of `SELECT timestamp, coin_id, market_cap FROM crypto_prices`. */
  datatype Snapshot = Snapshot(timestamp: Timestamp, coinId: Value, marketCap: Value)

  function SnapshotKey(s: Snapshot): Key
  {
    (s.timestamp, s.coinId)
  }

  function KeysOf(rows: seq<Snapshot>): set<Key>
  {
    set s | s in rows :: SnapshotKey(s)
  }

  /** `str(row['market_cap_tier'])`: the tier label, or `"nan"` when the market
      cap falls in no bin (negative, `NULL`, or not a number). */
  function TierText(marketCap: Value): (text: string)
    ensures marketCap.Num? && marketCap.n >= 0.0 ==> text == Label(Classify(marketCap.n).value)
    ensures !(marketCap.Num? && marketCap.n >= 0.0) <==> text == "nan"
  {
    match marketCap
    case Num(m) => (match Classify(m) case Some(t) => Label(t) case None => "nan")
    case _ => "nan"
  }

  /** The label the sweep writes for a stored row. */
  function TierOf(row: Row): string
  {
    TierText(row.metrics.marketCap)
  }

  /** The result of one `cursor.execute(update_sql, ...)`: the table after it
      and `cursor.rowcount`. */
  datatype Update = Update(table: Table, rowCount: nat)

  /** `UPDATE crypto_prices SET market_cap_tier = text WHERE timestamp = ts AND
      coin_id = id`. SQL's `coin_id = NULL` is never true, so a `NULL` coin id
      matches no row. The row count is the number of rows the statement
      changed (the connector does not ask the server for matched rows). */
  function UpdateTier(t: Table, k: Key, text: string): (u: Update)
    ensures u.table.Keys == t.Keys
    ensures forall k' | k' in t && k' != k :: u.table[k'] == t[k']
    ensures forall k' | k' in t :: u.table[k'].(tier := None) == t[k'].(tier := None)
    ensures k in t && k.1 != Null ==> u.table[k].tier == Some(text)
    ensures k.1 == Null ==> u.table == t
    ensures u.rowCount == if u.table == t then 0 else 1
  {
    if k in t && k.1 != Null && t[k].tier != Some(text) then
      var t' := t[k := t[k].(tier := Some(text))];
      assert t'[k] != t[k];
      Update(t', 1)
    else
      Update(t, 0)
  }

  /** What the sweep reports: the table after it, `updated_count`, and the
      keys of the rows whose update raised (they are only logged). */
  datatype Sweep = Sweep(table: Table, updated: nat, failed: seq<Key>)

  /** The `for index, row in df_crypto.iterrows()` loop, first row to last.
      `fails(k)` says whether the update of the row with key `k` raises. */
  function SweepRows(t: Table, rows: seq<Snapshot>, fails: Key -> bool): (s: Sweep)
    ensures s.table.Keys == t.Keys
    ensures forall k | k in t :: s.table[k].(tier := None) == t[k].(tier := None)
    ensures forall k | k in t && k !in KeysOf(rows) :: s.table[k] == t[k]
    ensures s.updated + |s.failed| <= |rows|
    ensures forall k | k in s.failed :: fails(k) && k in KeysOf(rows)
    ensures forall r | r in rows && fails(SnapshotKey(r)) :: SnapshotKey(r) in s.failed
  {
    if |rows| == 0 then Sweep(t, 0, [])
    else
      var n := |rows| - 1;
      var s := SweepRows(t, rows[..n], fails);
      var row := rows[n];
      var k := SnapshotKey(row);
      assert rows == rows[..n] + [row];
      assert KeysOf(rows) == KeysOf(rows[..n]) + {k};
      if fails(k) then
        Sweep(s.table, s.updated, s.failed + [k])
      else
        var u := UpdateTier(s.table, k, TierText(row.marketCap));
        Sweep(u.table, s.updated + u.rowCount, s.failed)
  }

  /** The row `k` after the sweep, when the sweep reaches it and its update
      succeeds. */
  function Tiered(t: Table, k: Key): Row
    requires k in t
  {
    t[k].(tier := Some(TierOf(t[k])))
  }

  /** Whether the sweep writes a tier into the row `k` at all. */
  predicate Reaches(k: Key, keys: set<Key>, fails: Key -> bool)
  {
    k in keys && k.1 != Null && !fails(k)
  }

  /** The keys among `keys` whose stored tier the sweep actually changes. */
  function Changed(t: Table, keys: set<Key>, fails: Key -> bool): set<Key>
  {
    set k | k in keys && k in t && Reaches(k, keys, fails) && t[k].tier != Some(TierOf(t[k]))
  }

  /** The snapshot rows agree with the table: each names a stored row and
      carries its market cap. */
  ghost predicate ReadFrom(rows: seq<Snapshot>, t: Table)
  {
    forall r | r in rows :: SnapshotKey(r) in t && r.marketCap == t[SnapshotKey(r)].metrics.marketCap
  }

  /** Over rows read from the table, the sweep writes the tier into exactly
      the rows it reaches, and leaves every other row as it was; rows whose
      update fails are skipped without stopping the sweep. */
  lemma {:induction false} SweepTable(t: Table, rows: seq<Snapshot>, fails: Key -> bool)
    requires ReadFrom(rows, t)
    ensures var s := SweepRows(t, rows, fails);
      forall k | k in t :: s.table[k] == if Reaches(k, KeysOf(rows), fails) then Tiered(t, k) else t[k]
  {
    if |rows| > 0 {
      var n := |rows| - 1;
      var init := rows[..n];
      var row := rows[n];
      var k := SnapshotKey(row);
      assert rows == init + [row];
      assert KeysOf(rows) == KeysOf(init) + {k};
      assert ReadFrom(init, t);
      SweepTable(t, init, fails);
      assert k in t && row.marketCap == t[k].metrics.marketCap;
    }
  }

  /** Reading a key that is skipped, `NULL`, or already read changes no
      further tier. */
  lemma ChangedUnchanged(t: Table, K: set<Key>, k: Key, fails: Key -> bool)
    requires fails(k) || k.1 == Null || k in K
    ensures Changed(t, K + {k}, fails) == Changed(t, K, fails)
  {
    forall x
      ensures x in Changed(t, K + {k}, fails) <==> x in Changed(t, K, fails)
    {
    }
  }

  /** Reading a new key the sweep reaches changes its tier once, unless the
      row already holds it. */
  lemma ChangedGrows(t: Table, K: set<Key>, k: Key, fails: Key -> bool)
    requires k in t && k !in K && k.1 != Null && !fails(k)
    ensures var extra := if t[k].tier != Some(TierOf(t[k])) then 1 else 0;
      |Changed(t, K + {k}, fails)| == |Changed(t, K, fails)| + extra
  {
    var extra := if t[k].tier != Some(TierOf(t[k])) then {k} else {};
    forall x
      ensures x in Changed(t, K + {k}, fails) <==> x in Changed(t, K, fails) + extra
    {
    }
    assert Changed(t, K + {k}, fails) == Changed(t, K, fails) + extra;
    assert k !in Changed(t, K, fails);
  }

  /** Over rows read from the table, `updated_count` is the number of rows
      whose stored tier the sweep changed: a row read twice, or already
      holding its tier, adds nothing, and a failed row adds nothing. */
  lemma {:induction false} SweepCount(t: Table, rows: seq<Snapshot>, fails: Key -> bool)
    requires ReadFrom(rows, t)
    ensures SweepRows(t, rows, fails).updated == |Changed(t, KeysOf(rows), fails)|
  {
    if |rows| > 0 {
      var n := |rows| - 1;
      var init := rows[..n];
      var row := rows[n];
      var k := SnapshotKey(row);
      assert rows == init + [row];
      var K := KeysOf(init);
      var K' := KeysOf(rows);
      assert K' == K + {k};
      assert ReadFrom(init, t);
      SweepCount(t, init, fails);
      SweepTable(t, init, fails);
      var s := SweepRows(t, init, fails);
      assert k in t && row.marketCap == t[k].metrics.marketCap;
      if fails(k) || k.1 == Null || k in K {
        ChangedUnchanged(t, K, k, fails);
      } else {
        assert s.table[k] == t[k];
        ChangedGrows(t, K, k, fails);
      }
    }
  }

  /** The whole-table effect the sweep is meant to have: every stored row the
      update reaches gets the tier of its own market cap. */
  function Segmented(t: Table, fails: Key -> bool): (r: Table)
    ensures r.Keys == t.Keys
  {
    map k | k in t :: if Reaches(k, t.Keys, fails) then Tiered(t, k) else t[k]
  }

  /** A sweep over a read of the whole table (in any order, with any
      duplicates) leaves the table `Segmented` and reports how many stored
      tiers it changed. */
  lemma SweepWholeTable(t: Table, rows: seq<Snapshot>, fails: Key -> bool)
    requires ReadFrom(rows, t) && KeysOf(rows) == t.Keys
    ensures SweepRows(t, rows, fails).table == Segmented(t, fails)
    ensures SweepRows(t, rows, fails).updated == |Changed(t, t.Keys, fails)|
  {
    SweepTable(t, rows, fails);
    SameRows(SweepRows(t, rows, fails).table, Segmented(t, fails));
    SweepCount(t, rows, fails);
  }

  /** On rows that carry no tier yet and have a coin id, every update that
      does not fail counts once: five fresh rows of which one fails report 4. */
  lemma FreshSweepCount(t: Table, rows: seq<Snapshot>, fails: Key -> bool)
    requires ReadFrom(rows, t)
    requires forall k | k in t :: t[k].tier == None && k.1 != Null
    ensures SweepRows(t, rows, fails).updated == |set k | k in KeysOf(rows) && !fails(k)|
  {
    SweepCount(t, rows, fails);
    var K := KeysOf(rows);
    forall k
      ensures k in Changed(t, K, fails) <==> k in K && !fails(k)
    {
      if k in K && !fails(k) {
        var r :| r in rows && SnapshotKey(r) == k;
      }
    }
    assert Changed(t, K, fails) == set k | k in K && !fails(k);
  }

  /** The rows whose update does not raise, in order. */
  function Succeeding(rows: seq<Snapshot>, fails: Key -> bool): (r: seq<Snapshot>)
    ensures forall x | x in r :: x in rows && !fails(SnapshotKey(x))
    ensures forall x | x in rows && !fails(SnapshotKey(x)) :: x in r
  {
    if |rows| == 0 then []
    else
      var n := |rows| - 1;
      assert rows == rows[..n] + [rows[n]];
      Succeeding(rows[..n], fails) + (if fails(SnapshotKey(rows[n])) then [] else [rows[n]])
  }

  /** Dropping the failing rows leaves the set of rows the sweep reaches as
      it was. */
  lemma SucceedingReaches(rows: seq<Snapshot>, fails: Key -> bool, k: Key)
    ensures Reaches(k, KeysOf(rows), fails) <==> Reaches(k, KeysOf(Succeeding(rows, fails)), fails)
  {
    if Reaches(k, KeysOf(rows), fails) {
      var r :| r in rows && SnapshotKey(r) == k;
      assert r in Succeeding(rows, fails);
    }
  }

  /** A failing row is as good as absent: the sweep leaves the same table and
      reports the same count as a sweep over the succeeding rows only. */
  lemma SweepSkipsFailedRows(t: Table, rows: seq<Snapshot>, fails: Key -> bool)
    requires ReadFrom(rows, t)
    ensures var ok := Succeeding(rows, fails);
      && SweepRows(t, rows, fails).table == SweepRows(t, ok, fails).table
      && SweepRows(t, rows, fails).updated == SweepRows(t, ok, fails).updated
  {
    var ok := Succeeding(rows, fails);
    assert ReadFrom(ok, t);
    var all, some := SweepRows(t, rows, fails), SweepRows(t, ok, fails);
    var K, K' := KeysOf(rows), KeysOf(ok);
    SweepTable(t, rows, fails);
    SweepTable(t, ok, fails);
    forall k | k in t
      ensures all.table[k] == some.table[k]
    {
      SucceedingReaches(rows, fails, k);
    }
    SameRows(all.table, some.table);
    SweepCount(t, rows, fails);
    SweepCount(t, ok, fails);
    forall k
      ensures k in Changed(t, K, fails) <==> k in Changed(t, K', fails)
    {
      SucceedingReaches(rows, fails, k);
    }
    assert Changed(t, K, fails) == Changed(t, K', fails);
  }

  /** The order in which `SELECT timestamp, coin_id, market_cap FROM
      crypto_prices` returns the table's rows: the query has no `WHERE`, so
      every stored key appears exactly once, in an order the server picks. */
  ghost predicate ScanOrder(order: seq<Key>, t: Table)
  {
    && (forall k | k in t :: k in order)
    && (forall i | 0 <= i < |order| :: order[i] in t)
    && (forall i, j | 0 <= i < j < |order| :: order[i] != order[j])
  }

  /** The result of the `SELECT`: one row per stored row, in the server's
      order, each carrying the stored market cap. */
  function Snapshots(t: Table, order: seq<Key>): (rows: seq<Snapshot>)
    requires ScanOrder(order, t)
    ensures ReadFrom(rows, t)
    ensures KeysOf(rows) == t.Keys
    ensures forall i, j | 0 <= i < j < |rows| :: SnapshotKey(rows[i]) != SnapshotKey(rows[j])
  {
    var rows := seq(|order|, i requires 0 <= i < |order| =>
      Snapshot(order[i].0, order[i].1, t[order[i]].metrics.marketCap));
    assert forall i | 0 <= i < |rows| :: SnapshotKey(rows[i]) == order[i];
    assert KeysOf(rows) == t.Keys by {
      forall k | k in t
        ensures k in KeysOf(rows)
      {
        var i :| 0 <= i < |order| && order[i] == k;
        assert rows[i] in rows;
      }
    }
    rows
  }

  /** `run_segmentation_update`: read the table, classify, and update it row by
      row. `connected` is false when the read or the connection fails, in
      which case nothing is written and no count is reported. Otherwise every
      stored row the update reaches holds the tier of its own market cap, and
      the count is the number of stored tiers that changed. */
  function RunSegmentation(t: Table, order: seq<Key>, connected: bool, fails: Key -> bool): (r: Option<Sweep>)
    requires ScanOrder(order, t)
    ensures r.None? <==> !connected
    ensures r.Some? ==> r.value.table.Keys == t.Keys
    ensures r.Some? ==> forall k | k in t :: r.value.table[k].(tier := None) == t[k].(tier := None)
    ensures r.Some? ==> r.value.table == Segmented(t, fails)
    ensures r.Some? ==> r.value.updated == |Changed(t, t.Keys, fails)|
  {
    if connected then
      var rows := Snapshots(t, order);
      SweepWholeTable(t, rows, fails);
      Some(SweepRows(t, rows, fails))
    else None
  }

  /** The row-level reading of `RunSegmentation`: a row with a coin id whose
      update does not fail ends up with the tier of its own market cap and
      every other column as it was. */
  lemma SegmentationTiersRow(t: Table, order: seq<Key>, fails: Key -> bool, k: Key)
    requires ScanOrder(order, t)
    requires k in t && k.1 != Null && !fails(k)
    ensures RunSegmentation(t, order, true, fails).value.table[k]
      == t[k].(tier := Some(TierText(t[k].metrics.marketCap)))
  {
    assert Reaches(k, t.Keys, fails);
  }
}

=== FILE: tiers.dfy ===
/** The market-cap tier: `pd.cut(market_cap, bins=[0, 1e8, 1e9, 1e11, inf],
    right=True, include_lowest=True)` with four labels. */
module Tiers {
  import opened Values

  datatype Tier = MicroNano | Small | Mid | Large

  /** The finite bin edges; the last bin is closed by `float('inf')`, which
      no real market cap reaches. */
  const Edges: seq<real> := [0.0, 100000000.0, 1000000000.0, 100000000000.0]

  /** The tiers in bin order, `labels[i]` naming bin `(Edges[i], Edges[i+1]]`. */
  const BinOrder: seq<Tier> := [MicroNano, Small, Mid, Large]

  /** The `labels` list: the text stored for each tier. No label reads as
      the `"nan"` written for a value in no bin. */
  function Label(t: Tier): (text: string)
    ensures text != "nan"
  {
    match t
    case MicroNano => "Micro/Nano Cap (< $100M)"
    case Small => "Small Cap ($100M - $1B)"
    case Mid => "Mid Cap ($1B - $100B)"
    case Large => "Large Cap (> $100B)"
  }

  /** Distinct tiers are stored under distinct labels, so the tier column
      identifies the tier. */
  lemma LabelInjective(a: Tier, b: Tier)
    ensures Label(a) == Label(b) ==> a == b
  {
    if a != b {
      assert Label(a)[2] != Label(b)[2];
    }
  }

  /** Position of a tier in the order of the bins. */
  function Rank(t: Tier): nat
  {
    match t
    case MicroNano => 0
    case Small => 1
    case Mid => 2
    case Large => 3
  }

  /** `edges.searchsorted(x, side='left')` on ascending edges: how many edges
      lie strictly below `x`. */
  function SearchSortedLeft(edges: seq<real>, x: real): (i: nat)
    ensures i <= |edges|
  {
    if |edges| == 0 then 0
    else (if edges[0] < x then 1 else 0) + SearchSortedLeft(edges[1..], x)
  }

  /** How `pd.cut` bins one value with `right=True`: the bin code is the
      `searchsorted` position, except that `include_lowest` moves a value
      equal to the lowest edge into the first bin; code 0 (below every bin)
      is NaN. With an infinite last edge the code never passes the last bin. */
  function Classify(m: real): (r: Option<Tier>)
    ensures r == None <==> m < 0.0
    ensures r == Some(MicroNano) <==> 0.0 <= m <= 100000000.0
    ensures r == Some(Small) <==> 100000000.0 < m <= 1000000000.0
    ensures r == Some(Mid) <==> 1000000000.0 < m <= 100000000000.0
    ensures r == Some(Large) <==> 100000000000.0 < m
  {
    var code := if m == Edges[0] then 1 else SearchSortedLeft(Edges, m);
    EdgesCount(m);
    if code == 0 then None else Some(BinOrder[code - 1])
  }

  /** `searchsorted` on the four edges, spelled out. */
  lemma EdgesCount(m: real)
    ensures SearchSortedLeft(Edges, m) ==
      (if m > 0.0 then 1 else 0) + (if m > 100000000.0 then 1 else 0)
      + (if m > 1000000000.0 then 1 else 0) + (if m > 100000000000.0 then 1 else 0)
  {
    var e3 := [100000000000.0];
    var e2 := [1000000000.0] + e3;
    var e1 := [100000000.0] + e2;
    assert e3[1..] == [];
    assert e2[1..] == e3;
    assert e1[1..] == e2;
    assert Edges[1..] == e1;
    assert SearchSortedLeft(e3, m) == if m > 100000000000.0 then 1 else 0;
    assert SearchSortedLeft(e2, m) == (if m > 1000000000.0 then 1 else 0) + SearchSortedLeft(e3, m);
    assert SearchSortedLeft(e1, m) == (if m > 100000000.0 then 1 else 0) + SearchSortedLeft(e2, m);
  }

  /** A larger market cap never lands in a lower tier. */
  lemma ClassifyMonotone(m1: real, m2: real)
    requires 0.0 <= m1 <= m2
    ensures Classify(m1).Some? && Classify(m2).Some?
    ensures Rank(Classify(m1).value) <= Rank(Classify(m2).value)
  {
  }

  /** Every non-negative market cap is in exactly one bin; a negative one is
      in none. */
  lemma ClassifyExactlyOne(m: real)
    ensures m >= 0.0 ==> exists t :: Classify(m) == Some(t)
    ensures m >= 0.0 ==> forall t1, t2 :: Classify(m) == Some(t1) && Classify(m) == Some(t2) ==> t1 == t2
    ensures m < 0.0 ==> forall t :: Classify(m) != Some(t)
  {
    if m >= 0.0 {
      assert Classify(m) == Some(Classify(m).value);
    }
  }
}

=== FILE: transformer.dfy ===
/** `transform_data`: reshapes the raw coin objects into price points that all
    carry one capture timestamp. */
module Transformer {
  import opened Values
  import opened Records

  /** One iteration of the transform loop: the coin object reshaped into a
      price point stamped with the run's capture time `now`. */
  function TransformRecord(coin: RawRecord, now: Timestamp): (p: PricePoint)
    ensures p.timestamp == now
    ensures p.coinId == Get(coin, "id")
  {
    PricePoint(
      now, Get(coin, "id"), Get(coin, "symbol"), Get(coin, "name"),
      Metrics(
        Get(coin, "current_price"), Get(coin, "market_cap"), Get(coin, "total_volume"),
        Get(coin, "high_24h"), Get(coin, "low_24h"), Get(coin, "price_change_24h"),
        Get(coin, "price_change_percentage_24h"), Get(coin, "market_cap_change_24h"),
        Get(coin, "market_cap_change_percentage_24h"), Get(coin, "circulating_supply"),
        Get(coin, "total_supply"), Get(coin, "max_supply"), Get(coin, "ath"), Get(coin, "atl")))
  }

  /** Every field of the transformed record is `coin.get` of its JSON key, so
      a missing key becomes `Null`, never a default. */
  lemma TransformRecordFields(coin: RawRecord, now: Timestamp)
    ensures var p := TransformRecord(coin, now);
      && (forall f :: FieldOf(p, f) == Get(coin, JsonKey(f)))
      && (forall f :: JsonKey(f) !in coin ==> FieldOf(p, f) == Null)
  {
    var p := TransformRecord(coin, now);
    forall f
      ensures FieldOf(p, f) == Get(coin, JsonKey(f))
    {
      match f
      case Id =>
      case Symbol =>
      case Name =>
      case CurrentPrice =>
      case MarketCap =>
      case TotalVolume =>
      case High24h =>
      case Low24h =>
      case PriceChange24h =>
      case PriceChangePercentage24h =>
      case MarketCapChange24h =>
      case MarketCapChangePercentage24h =>
      case CirculatingSupply =>
      case TotalSupply =>
      case MaxSupply =>
      case Ath =>
      case Atl =>
    }
  }

  /** `transform_data(raw_data)` with the clock reading `now` passed in: the
      loop appends one record per coin, in order. */
  function TransformData(rawData: seq<RawRecord>, now: Timestamp): (r: seq<PricePoint>)
    ensures |r| == |rawData|
    ensures forall i | 0 <= i < |r| :: r[i] == TransformRecord(rawData[i], now)
  {
    if |rawData| == 0 then []
    else
      var n := |rawData| - 1;
      var init := TransformData(rawData[..n], now);
      var r := init + [TransformRecord(rawData[n], now)];
      assert forall i | 0 <= i < n :: r[i] == init[i] && rawData[..n][i] == rawData[i];
      r
  }

  /** The coin object a price point could have come from: every non-null
      field under its JSON key, and nothing else. */
  function ToRaw(p: PricePoint): RawRecord
  {
    JsonKeyInjective();
    map f | f in AllFields && FieldOf(p, f) != Null :: JsonKey(f) := FieldOf(p, f)
  }

  /** A coin object restricted to the keys the transform reads, with `null`
      entries dropped (they read the same as absent ones). */
  function Relevant(coin: RawRecord): RawRecord
  {
    map k | k in coin && coin[k] != Null && exists f :: JsonKey(f) == k :: coin[k]
  }

  /** Each field of a price point survives the trip through its coin object. */
  lemma RoundTripField(p: PricePoint, f: Field)
    ensures Get(ToRaw(p), JsonKey(f)) == FieldOf(p, f)
  {
    var raw := ToRaw(p);
    JsonKeyInjective();
    FieldListed(f);
    if FieldOf(p, f) == Null {
      assert JsonKey(f) !in raw;
    } else {
      assert JsonKey(f) in raw;
    }
  }

  /** Transforming the coin object of a price point gives back the price point. */
  lemma TransformRoundTrip(p: PricePoint)
    ensures TransformRecord(ToRaw(p), p.timestamp) == p
  {
    var q := TransformRecord(ToRaw(p), p.timestamp);
    TransformRecordFields(ToRaw(p), p.timestamp);
    forall f
      ensures FieldOf(q, f) == FieldOf(p, f)
    {
      RoundTripField(p, f);
    }
    PricePointExtensional(q, p);
  }

  /** Two coin objects with the same keys and the same value under each key
      are equal. */
  lemma SameEntries(a: RawRecord, b: RawRecord)
    requires forall k | k in a :: k in b && a[k] == b[k]
    requires forall k | k in b :: k in a
    ensures a == b
  {
  }

  /** A price point whose every field is read from `coin` by its JSON key
      has exactly the relevant part of `coin` as its coin object. */
  lemma ToRawOfReadFields(coin: RawRecord, p: PricePoint)
    requires forall f {:trigger FieldOf(p, f)} :: FieldOf(p, f) == Get(coin, JsonKey(f))
    ensures ToRaw(p) == Relevant(coin)
  {
    var a := ToRaw(p);
    var b := Relevant(coin);
    JsonKeyInjective();
    forall k | k in a
      ensures k in b && a[k] == b[k]
    {
      var f :| f in AllFields && FieldOf(p, f) != Null && JsonKey(f) == k;
      assert a[k] == FieldOf(p, f);
      assert FieldOf(p, f) == Get(coin, k);
      assert k in coin && coin[k] == a[k];
    }
    forall k | k in b
      ensures k in a
    {
      var f :| JsonKey(f) == k;
      FieldListed(f);
      assert FieldOf(p, f) == Get(coin, k) == coin[k];
    }
    SameEntries(a, b);
  }

  /** The transform loses exactly the keys it does not read and the `null`
      entries: nothing the transform reads is replaced by a default. */
  lemma TransformKeepsRelevantFields(coin: RawRecord, now: Timestamp)
    ensures ToRaw(TransformRecord(coin, now)) == Relevant(coin)
  {
    TransformRecordFields(coin, now);
    ToRawOfReadFields(coin, TransformRecord(coin, now));
  }
}

=== FILE: values.dfy ===
/** Scalar values as they travel from the market-data JSON through the pipeline. */
module Values {

  /** The conventional Some/None datatype; used for nullable columns. */
  datatype Option<+T> = None | Some(value: T)

  /** A JSON scalar as the Python code sees it. `Null` is Python's `None`,
      which is what both an explicit JSON `null` and a missing key read as. */
  datatype Value = Null | Num(n: real) | Text(s: string)

  /** Python's `min` on two integers. */
  function Min(a: int, b: int): (m: int)
    ensures m <= a && m <= b
    ensures m == a || m == b
  {
    if a <= b then a else b
  }
}
